=== FILE: README.md ===
# Fabric deployment script, modelled in Dafny

`fabfile.py` is a Fabric script that provisions a Python web application on
remote hosts and tears it down again. This project models its decision
logic:

- how the application name is derived from a git URL (the code cuts the
  last segment at its first `.`, so it does more than strip a `.git`
  suffix: `a.b.git` names the application `a`);
- the `_is_subpath` guard in front of every recursive delete;
- which remote commands `clean`, `_setup_app`, `_setup_supervisor` and
  `_setup_nginx` issue, given the operator's answers and the set of paths
  that exist on the host.

Modules:

- `Paths` (paths.dfy) writes out Python's `str.split`, `posixpath.join`
  and `os.path.commonprefix`. `os.path.realpath` is a function parameter.
  On top of these it defines `RepoNameFromGitUrl` and `IsSubpath`.
- `Shell` (shell.dfy) cuts an unquoted command line into words at blanks.
- `Commands` (commands.dfy) gives the remote commands as data. `Line`
  renders the exact text the script formats. `Cd` resolves nested `cd`
  blocks. `Probe` is `files.exists` inside a `cd` block; it never finds
  the empty path, because `stat` of an empty operand fails.
- `Teardown` (teardown.dfy) holds the plan of `clean`: an abort with its
  reason, or the ordered list of `rm -rf` / `rmdir` commands. It also
  holds the corrected plan `SafeCleanPlan` (see Findings).
- `Setup` (setup.dfy) holds the plans of the three setup helpers and their
  idempotence properties.
- `Remote` (remote.dfy) holds the class `Host`. Its methods issue the
  commands one at a time into a command log, probing a fixed set of
  existing paths, and each is proved to issue exactly its plan.

## Model

| member | source | states |
|---|---|---|
| Paths.Split | fabfile.py:203-204 | `str.split` on one character: at least one piece, no piece holds the separator, and joining the pieces with it gives the input back |
| Paths.RepoNameFromGitUrl | fabfile.py:202-204 | the name holds no `/` and no `.`, and is a prefix of the URL's last `/`-separated segment |
| Paths.RepoNameIsSplitOfSplit | fabfile.py:203-204 | the name equals `git_url.split('/')[-1].split('.')[0]` for every URL |
| Paths.RepoNameCutsAtFirstDot | fabfile.py:203-204 | `front/name.ext` (a dotless name, any extension, even one with more dots) gives `name` |
| Paths.RepoNameKeepsDotlessSegment | fabfile.py:203-204 | a last segment without a dot is returned unchanged |
| Paths.RepoNameOfTypicalUrl | fabfile.py:203-204 | `git://host/group/repo.git` gives `repo` |
| Paths.Join | fabfile.py:209 | `posixpath.join`: an absolute second part replaces the first; otherwise the result starts with the first part and ends with the second, with at most one `/` added between them |
| Paths.JoinEmptyAddsSeparator | fabfile.py:209 | joining with `''` adds a trailing `/` exactly when the path is nonempty and does not already end in one |
| Paths.JoinRelative | fabfile.py:184-186 | a relative part joined onto a path without a trailing `/` lands after exactly one `/` |
| Paths.JoinUnder | fabfile.py:184-186 | joining `sub/name` onto a directory gives the same path as joining `sub` and then `name` |
| Paths.CommonPrefix | fabfile.py:211 | `os.path.commonprefix` of two strings: a prefix of both that cannot be extended |
| Paths.CommonPrefixIsSecond | fabfile.py:211 | the common prefix is all of the second string exactly when it is a prefix of the first |
| Paths.IsSubpath | fabfile.py:207-211 | the guard passes exactly when the canonical root plus `/` is a proper prefix of the canonical path |
| Paths.SubpathIsStrictDescendant | fabfile.py:207-211 | for a canonical root without a trailing `/`, the guard passes exactly when the canonical path is that root, a `/` and a nonempty rest |
| Paths.RootIsNotOwnSubpath | fabfile.py:209-211 | a root is never a subpath of itself |
| Paths.SiblingIsNotSubpath | fabfile.py:209-211 | a canonical path that extends the root by anything not starting with `/` is rejected |
| Paths.SiblingExample | fabfile.py:209-211 | `/x/projectsX` is rejected against `/x/projects` |
| Commands.CdIsJoin | fabfile.py:101-115 | inside a block whose directory has no trailing `/`, `cd` resolves every path not starting with `~` to the same place as `posixpath.join` |
| Commands.CdNested | fabfile.py:101-104 | `cd(a)` and then `cd(b)` inside a block reach the same directory as one `cd(a/b)`, for relative `a` and `b` |
| Commands.RemoveTreeWords | fabfile.py:29 | the shell reads `rm -rf X` as `rm`, `-rf` and the words of `X` |
| Teardown.RemoveWithParent | fabfile.py:28-36 | nothing when the directory is absent; otherwise `rm -rf dir`, followed by `rmdir` of the parent exactly when the parent exists |
| Teardown.CleanPlan | fabfile.py:7-36 | an abort issues no command; the run completes exactly when a name is given, the operator confirms and both guards pass, and then it issues the application's removal pair followed by the virtualenv's |
| Teardown.CleanAbortReasons | fabfile.py:8-26 | the abort reason in order: no name, then refusal, then the application guard, then the virtualenv guard |
| Teardown.RemovalPairs | fabfile.py:28-36 | in two removal pairs, every `rm -rf` is of an existing directory of the pair, and every `rmdir` is of an existing parent and comes right after the `rm -rf` of its child |
| Teardown.CleanRemovesOnlyGuardedPaths | fabfile.py:25-34 | every `rm -rf` is of the application or virtualenv directory, which exists and passed the guard against its own root |
| Teardown.CleanPrunesParentOnlyAfterRemoval | fabfile.py:28-36 | every `rmdir` is of `~/projects` or `~/virtualenvs`, which exists, and comes right after the `rm -rf` of the application's directory in it |
| Teardown.PairsInOrder | fabfile.py:28-36 | of two removal pairs over different directories, every step of the first precedes every step of the second |
| Teardown.CleanRemovesAppBeforeVenv | fabfile.py:28-36 | no step on the virtualenv side precedes a step on the application side |
| Teardown.LocalGuardAcceptsChild | fabfile.py:25-26 | with the local realpath of simple relative paths (no `.`, no repeated, leading or trailing `/`), the guard accepts any simple name under a simple root, and the joined path is simple too |
| Teardown.BlankSplitsRemoval | fabfile.py:29 | `rm -rf first second` reaches the shell as four words |
| Teardown.BlankNamePassesGuards | fabfile.py:22-29 | for the name `a ~` both guards pass and the plan is the single command `rm -rf ~/projects/a ~` |
| Teardown.CleanAsWrittenSplitsName | fabfile.py:22-29 | whenever a name `first second` passes both guards, the shell receives `~/projects/first` and `second` as two separate operands of `rm -rf` |
| Teardown.SafeCleanPlan | fabfile.py:7-36 | a name outside `[A-Za-z0-9._-]` aborts with nothing issued; an empty or allow-listed name gets exactly the plan of `clean` (CleanPlan, with its aborts, pairs and order); every `rm -rf` is exactly three words whose operand exists and passed the guard |
| Teardown.PlainNameRemovalsAreSingleWords | fabfile.py:22-29 | for an allow-listed name both possible `rm -rf` lines have exactly one operand |
| Setup.SetupAppPlan | fabfile.py:96-115 | the plan uploads nothing and removes nothing |
| Setup.SetupAppFetchesOnce | fabfile.py:100-106 | the checkout is fetched exactly once: pulled when `files.exists(app_name)` inside `~/projects` finds it, cloned otherwise |
| Setup.SetupAppLinksOnlyWhenAbsent | fabfile.py:108-115 | the checkout is linked into `/var/webapps` once when `files.exists(app_name)` there finds nothing and never otherwise, and the link points at the directory `pwd` printed |
| Setup.EmptyNameClonesAndLinks | fabfile.py:100-115 | for an empty name, whatever exists on the host, the checkout is cloned and not pulled, and a link is made |
| Setup.FetchedCheckoutIsLinked | fabfile.py:101-110 | for a non-empty name not starting with `~`, a pull runs inside the directory `pwd` is asked about, and a clone of `git_url` runs in `~/projects` with the name as its directory, which `cd` resolves to that same directory |
| Setup.CloneDirectoryOperand | fabfile.py:104-106 | the clone line reaches git with the name as its directory operand, and with none for the empty name |
| Setup.SetupSupervisorPlan | fabfile.py:163-177 | nothing is removed, and every upload goes to the program file and only when it was absent |
| Setup.SupervisorSetupIsIdempotent | fabfile.py:163-177 | the program file is uploaded, and supervisor restarted, exactly when the file was missing, and the restart follows the upload |
| Setup.SetupNginxPlan | fabfile.py:180-199 | nothing is removed, and every upload goes to the site file and only when it was absent |
| Setup.NginxSetupIsIdempotent | fabfile.py:180-199 | the site file is uploaded, and nginx restarted, exactly when the file was missing; no upload overwrites a file, every upload goes to the site file, and the restart follows the upload |
| Setup.NginxEnablesOnlyNewSite | fabfile.py:188-198 | the site is linked into sites-enabled exactly when the site file was missing and `files.exists(app_name)` there finds nothing (always, for an empty name) |
| Setup.EmptyNameSiteFileIsDirectory | fabfile.py:184-189 | for the empty name the site file is `/etc/nginx/sites-available/`, and the upload is skipped exactly when that directory is in the set of existing paths |
| Setup.NginxLinkReachesSiteFile | fabfile.py:184-198 | for a non-empty name without `/`, the relative link `../sites-available/<name>` made in sites-enabled names the uploaded site file |
| Remote.Host.RemoveWithParentDir | fabfile.py:28-36 | appends exactly one removal pair to the log |
| Remote.Host.RemoveBoth | fabfile.py:28-36 | appends the application's removal pair, then the virtualenv's |
| Remote.Host.Clean | fabfile.py:7-36 | appends exactly the commands of SafeCleanPlan to the log and returns its outcome; for an empty or allow-listed name that is CleanPlan's plan |
| Remote.Host.FetchCheckout | fabfile.py:101-106 | appends the pull or the clone the plan chooses |
| Remote.Host.LinkCheckout | fabfile.py:113-115 | appends the link the plan chooses, or nothing |
| Remote.Host.SetupApp | fabfile.py:96-115 | appends exactly the commands of SetupAppPlan to the log |
| Remote.Host.SetupSupervisor | fabfile.py:163-177 | appends exactly the commands of SetupSupervisorPlan to the log |
| Remote.Host.EnableSite | fabfile.py:196-198 | appends the sites-enabled link the plan chooses, or nothing |
| Remote.Host.SetupNginx | fabfile.py:180-199 | appends exactly the commands of SetupNginxPlan to the log |

## Left out

- `deploy`, `_setup_venv`, `_setup_postgres`, `_setup_redis` and `_setup_deploy_keys` are not part of this model. Only the name derivation, the guard, `clean` and the three setup helpers above are modelled.
- Remote execution: `run`, `sudo` and `files.upload_template` only append an entry to the host's command log. Their effects on the host are not modelled.
- Every remote command is taken to succeed. With Fabric's default `warn_only=False`, a failing `run`, `sudo` or `upload_template` aborts the whole run, so the commands really issued are a prefix of the modelled plan. The safety properties (the guard before every `rm -rf`, `rm -rf` before its `rmdir`, no upload over an existing file, no removal in the setup helpers) hold for every prefix as well; the counts and the idempotence lemmas describe a run that completes.
- `files.exists` asks a fixed set of existing paths. Commands issued by one of these functions do not change that set. `mkdir -p` creates `~/projects` and `/var/webapps`, but the probes after it ask about an entry inside them, and for the empty name, where that entry would be the directory itself, `Probe` finds nothing. So in the modelled functions no probe asks about a path that an earlier command of the same function creates or removes, with two exceptions. For an absolute application name, the application and virtualenv directories are the same path. For a name the shell splits into several operands or expands (a blank, `~`, a glob), `rm -rf` removes paths other than the one probed: with the name `a ~`, `rm -rf ~/projects/a ~` removes the home directory, so the later probes at fabfile.py:30, :33 and :35 would all fail, while the model still answers them from the fixed set (after that `rm -rf`, CleanPlan still issues the `rmdir` of `~/projects` when `~/projects` is in the set). SafeCleanPlan rejects every such name before any command. A third exception is `apt-get install -y nginx` in `_setup_nginx`, on a host where it installs nginx for the first time: the package creates `/etc/nginx/sites-available/` and, on Debian, `sites-available/default`. For the empty name the site file `os.path.join(conf_dir, '')` is that directory, and for the name `default` it is the packaged file. The probe at fabfile.py:188 then finds them, and the source issues nothing after the install. SetupNginxPlan answers from the set as it was before the install, so for those names on such a host it still uploads, links and restarts.
- Fabric's `files.exists` runs `stat "$(echo PATH)"`, so the remote shell expands `~`, globs and blanks in the path before the lookup. The set of existing paths holds paths as the script writes them; a member of the set stands for a path whose expanded probe succeeds.
- Operator interaction: the name prompt and the "Are you sure?" confirmation are parameters (`typed`, `confirmed`). `puts`, `hide` and `show` only affect console output and are left out.
- `os.path.realpath` consults the local filesystem. It is an uninterpreted function parameter. `LocalRealpath` is one instance: working directory `/home/op`, no symlinks, and only for simple relative paths (no `.` or `..` component, no repeated `/`, no leading or trailing `/`); it is applied to no other path.
- The output of `run('pwd')` in `_setup_app` is remote I/O. It is the parameter `printedDir`.
- Template rendering: an upload records the template file and its destination. The Jinja context and rendering are left out.
- Package installation with `apt-get` is recorded as a command. Its effect is not modelled.
- Fabric's `cd` escapes spaces in the directory it records. `Cd` keeps the directory as written.
- `Words` models only how a shell splits at blanks. Quoting, globbing and tilde expansion are not modelled. That is enough to show how an operand is split.
- Python `assert` is modelled as an abort with `InvalidPath`. Under `python -O` the guard assertions are stripped. That mode is not modelled.
- Teardown.CleanRemovesAppBeforeVenv: stated only for names whose application and virtualenv directories differ. That holds for every name that is not absolute. For an absolute name both joins give the same path, so the two removal pairs cannot be told apart.
- Setup.FetchedCheckoutIsLinked: stated only for non-empty names that do not start with `~`. For a name starting with `~`, `cd(app_name)` inside `cd('~/projects')` goes to the name itself, while `os.path.join('~', 'projects', app_name)` puts it under `~/projects`. For the empty name (a git URL ending in `/`), `git clone` gets no directory operand (Setup.CloneDirectoryOperand) and clones into a directory git derives from the URL, while `pwd` reports `~/projects` itself; where git puts that directory is not modelled.
- Remote.Host.Clean: follows the corrected plan of the finding below. For an empty or allow-listed name that plan is Teardown.CleanPlan, which has its own lemmas.

## Findings

| source | as written | input that shows it | evidently intended | confidence | as-written member | corrected member |
|---|---|---|---|---|---|---|
| fabfile.py:22-29 | the application name goes into `rm -rf {}` unquoted, after the guard has checked it as a single path | name `a ~`, local working directory `/home/op` without symlinks, and the probe for `~/projects/a ~` succeeds (the remote shell expands it to `<home>/projects/a <home>`, so that directory must exist): both guards pass and the remote shell runs `rm -rf ~/projects/a ~`, whose second operand is the home directory | only the path the guard accepted is removed | not executed | Teardown.CleanAsWrittenSplitsName | Teardown.SafeCleanPlan |

=== FILE: commands.dfy ===
/**
 * The remote actions the deployment script issues, as data.  A command is
 * run either as the login user (`run`) or as root (`sudo`), inside the
 * directory of the enclosing `cd` blocks; a configuration template is
 * uploaded as root.  `Line` gives the exact shell text the script formats.
 */
module Commands {
  import opened Shell
  import opened Paths

  /** `os.path.join('~', 'projects')`: where applications are checked out. */
  const ProjectsDir: string := "~/projects"
  /** `os.path.join('~', 'virtualenvs')`: where their virtualenvs live. */
  const VenvsDir: string := "~/virtualenvs"

  datatype Principal = Login | Root

  datatype Cmd =
    | AptInstall(packages: string)
    | MakeDirs(dir: string)
    | GitPull
    | GitClone(url: string, name: string)
    | PrintWorkingDir
    | Symlink(target: string, name: string)
    | RemoveTree(path: string)
    | RemoveDirIfEmpty(path: string)
    | RestartService(service: string)
  {
    function Line(): string {
      match this
      case AptInstall(packages) => "apt-get install -y " + packages
      case MakeDirs(dir) => "mkdir -p " + dir
      case GitPull => "git pull"
      case GitClone(url, name) => "git clone " + url + " " + name
      case PrintWorkingDir => "pwd"
      case Symlink(target, name) => "ln -s " + target + " " + name
      case RemoveTree(path) => "rm -rf " + path
      case RemoveDirIfEmpty(path) => "rmdir --ignore-fail-on-non-empty " + path
      case RestartService(service) => "service " + service + " restart"
    }
  }

  /** One entry of the command log; `cwd` is "" when no `cd` block is active. */
  datatype Step =
    | Exec(who: Principal, cwd: string, cmd: Cmd)
    | Upload(template: string, destination: string)

  /**
   * The directory a `cd(path)` block switches to when `dir` is the directory
   * already in force ("" outside any block).  A path starting with `/` or
   * `~` stands on its own, as does any path outside a block; any other is
   * taken relative to `dir`.  A `files.exists` probe inside the block
   * looks where `cd` resolves its path, except for the empty path (Probe).
   */
  function Cd(dir: string, path: string): (r: string)
    ensures dir == [] || (|path| > 0 && (path[0] == '/' || path[0] == '~')) ==> r == path
    ensures dir != [] && !(|path| > 0 && (path[0] == '/' || path[0] == '~')) ==>
      dir < r && r[|dir|..] == "/" + path
  {
    if dir == [] || (|path| > 0 && (path[0] == '/' || path[0] == '~')) then path else dir + "/" + path
  }

  /**
   * Inside a block, `cd` resolves every path not starting with `~` as
   * `posixpath.join` does, provided the enclosing directory has no
   * trailing `/`.
   */
  lemma CdIsJoin(dir: string, path: string)
    requires dir != [] && !EndsWithSeparator(dir) && !(|path| > 0 && path[0] == '~')
    ensures Cd(dir, path) == Join(dir, path)
  {
  }

  /** A relative path that `cd` and `posixpath.join` both put under the enclosing directory. */
  predicate IsRelative(path: string) {
    path == [] || (path[0] != '/' && path[0] != '~')
  }

  /**
   * Nested `cd` blocks compose: `cd(a)` and then `cd(b)` inside a block
   * reach the same directory as the single `cd(a/b)`, for relative `a`
   * and `b`.
   */
  lemma CdNested(dir: string, a: string, b: string)
    requires dir != [] && a != [] && IsRelative(a) && IsRelative(b)
    ensures Cd(Cd(dir, a), b) == Cd(dir, a + "/" + b)
  {
    assert Cd(dir, a) == dir + "/" + a;
    assert (a + "/" + b)[0] == a[0];
    assert dir + "/" + a + "/" + b == dir + "/" + (a + "/" + b);
  }

  /**
   * `files.exists(path)` run inside `cd(dir)`.  Fabric asks the remote
   * shell to `stat` the path; `stat` of an empty operand fails, so the
   * empty path never exists, and any other path is looked up where `cd`
   * resolves it.
   */
  predicate Probe(dir: string, path: string, existing: set<string>) {
    path != [] && Cd(dir, path) in existing
  }

  predicate IsPull(s: Step) { s.Exec? && s.cmd.GitPull? }
  predicate IsClone(s: Step) { s.Exec? && s.cmd.GitClone? }
  predicate IsSymlink(s: Step) { s.Exec? && s.cmd.Symlink? }
  predicate IsUpload(s: Step) { s.Upload? }
  predicate IsRestart(s: Step) { s.Exec? && s.cmd.RestartService? }

  /** How many steps of the log satisfy `p`. */
  function Count(steps: seq<Step>, p: Step -> bool): (n: nat)
    ensures n <= |steps|
    ensures n == 0 <==> forall i :: 0 <= i < |steps| ==> !p(steps[i])
    decreases |steps|
  {
    if steps == [] then 0
    else
      var tail := steps[1..];
      assert forall i :: 0 < i < |steps| ==> steps[i] == tail[i - 1];
      (if p(steps[0]) then 1 else 0) + Count(tail, p)
  }

  /** Counting distributes over concatenated logs. */
  lemma {:induction false} CountConcat(a: seq<Step>, b: seq<Step>, p: Step -> bool)
    ensures Count(a + b, p) == Count(a, p) + Count(b, p)
    decreases |a|
  {
    if a == [] {
      assert a + b == b;
    } else {
      assert (a + b)[0] == a[0] && (a + b)[1..] == a[1..] + b;
      CountConcat(a[1..], b, p);
    }
  }

  // ---------------------------------------------------------------------
  // How the shell reads an `rm -rf` line
  // ---------------------------------------------------------------------

  /** `git clone U N` is the words `git` and `clone`, each followed by one space, before `U N`. */
  lemma GitCloneLine(url: string, name: string)
    ensures GitClone(url, name).Line() == "git" + " " + ("clone" + " " + (url + " " + name))
  {
  }

  /** The shell reads `rm -rf X` as `rm`, `-rf` and the words of `X`. */
  lemma RemoveTreeWords(operands: string)
    ensures Words(RemoveTree(operands).Line()) == ["rm", "-rf"] + Words(operands)
  {
    assert RemoveTree(operands).Line() == "rm" + " " + ("-rf" + " " + operands);
    TwoWordsThenSpace("rm", "-rf", operands);
  }
}

=== FILE: paths.dfy ===
/**
 * The two pure string helpers of the deployment script: deriving the
 * application name from a git URL, and the guard that must pass before
 * any recursive delete.  Python's `str.split`, `posixpath.join` and
 * `os.path.commonprefix` are written out here; `os.path.realpath`, which
 * consults the local filesystem, is passed in as a function.
 */
module Paths {

  predicate IsSuffix(r: string, s: string) {
    |r| <= |s| && s[|s| - |r|..] == r
  }

  // ---------------------------------------------------------------------
  // Python's str.split for a one-character separator
  // ---------------------------------------------------------------------

  /** `c.join(parts)`: glue the pieces back together with `c` between them. */
  function Joined(parts: seq<string>, c: char): string
    requires |parts| >= 1
    decreases |parts|
  {
    if |parts| == 1 then parts[0] else parts[0] + [c] + Joined(parts[1..], c)
  }

  /**
   * `s.split(c)`: the maximal pieces of `s` between occurrences of `c`.
   * There is always at least one piece, no piece contains `c`, and joining
   * the pieces with `c` gives `s` back.
   */
  function Split(s: string, c: char): (parts: seq<string>)
    ensures |parts| >= 1
    ensures forall i :: 0 <= i < |parts| ==> c !in parts[i]
    ensures Joined(parts, c) == s
    decreases |s|
  {
    if s == [] then [[]]
    else
      var rest := Split(s[1..], c);
      if s[0] == c then
        var parts := [[]] + rest;
        assert parts[1..] == rest;
        parts
      else
        var parts := [[s[0]] + rest[0]] + rest[1..];
        assert parts[1..] == rest[1..];
        assert forall i :: 1 <= i < |parts| ==> parts[i] == rest[i];
        assert |rest| > 1 ==> Joined(rest, c) == rest[0] + [c] + Joined(rest[1..], c);
        parts
  }

  /** `s.split(c)[-1]`: the text after the last `c`, or all of `s` if it has none. */
  function AfterLast(s: string, c: char): (r: string)
    ensures c !in r
    ensures IsSuffix(r, s)
    ensures |r| < |s| ==> s[|s| - |r| - 1] == c
    decreases |s|
  {
    if s == [] then []
    else if s[|s| - 1] == c then []
    else
      var front, last := s[..|s| - 1], s[|s| - 1];
      assert s == front + [last];
      SuffixGrows(front, last, c, AfterLast(front, c));
      AfterLast(front, c) + [last]
  }

  /** AfterLast's contract carries over when a character other than `c` is appended. */
  lemma SuffixGrows(front: string, last: char, c: char, r: string)
    requires last != c && c !in r && IsSuffix(r, front)
    requires |r| < |front| ==> front[|front| - |r| - 1] == c
    ensures var s, r' := front + [last], r + [last];
            c !in r' && IsSuffix(r', s) && (|r'| < |s| ==> s[|s| - |r'| - 1] == c)
  {
    var s, r' := front + [last], r + [last];
    assert s[|s| - |r'|..] == front[|front| - |r|..] + [last];
    if |r'| < |s| {
      assert s[|s| - |r'| - 1] == front[|front| - |r| - 1];
    }
  }

  /** `s.split(c)[0]`: the text before the first `c`, or all of `s` if it has none. */
  function BeforeFirst(s: string, c: char): (r: string)
    ensures c !in r
    ensures r <= s
    ensures |r| < |s| ==> s[|r|] == c
    decreases |s|
  {
    if s == [] then []
    else if s[0] == c then []
    else [s[0]] + BeforeFirst(s[1..], c)
  }

  /** AfterLast's contract pins its result down: no other suffix meets it. */
  lemma AfterLastUnique(s: string, c: char, r: string)
    requires c !in r && IsSuffix(r, s)
    requires |r| < |s| ==> s[|s| - |r| - 1] == c
    ensures r == AfterLast(s, c)
  {
  }

  /** BeforeFirst's contract pins its result down: no other prefix meets it. */
  lemma BeforeFirstUnique(s: string, c: char, r: string)
    requires c !in r && r <= s
    requires |r| < |s| ==> s[|r|] == c
    ensures r == BeforeFirst(s, c)
  {
  }

  /** The first piece of `s.split(c)` is BeforeFirst. */
  lemma {:induction false} FirstPieceIsBeforeFirst(s: string, c: char)
    ensures Split(s, c)[0] == BeforeFirst(s, c)
    decreases |s|
  {
    if s != [] && s[0] != c {
      FirstPieceIsBeforeFirst(s[1..], c);
    }
  }

  /** Joining two or more pieces ends with the separator and the last piece. */
  lemma {:induction false} JoinedLast(parts: seq<string>, c: char)
    requires |parts| > 1
    ensures Joined(parts, c) == Joined(parts[..|parts| - 1], c) + [c] + parts[|parts| - 1]
    decreases |parts|
  {
    var n := |parts|;
    var init := parts[..n - 1];
    if n == 2 {
      assert init == [parts[0]] && parts[1..] == [parts[1]];
    } else {
      var tail := parts[1..];
      JoinedLast(tail, c);
      assert init[1..] == tail[..|tail| - 1];
      assert tail[|tail| - 1] == parts[n - 1];
      assert Joined(init, c) == init[0] + [c] + Joined(init[1..], c);
    }
  }

  /** The last piece of `s.split(c)` is AfterLast. */
  lemma LastPieceIsAfterLast(s: string, c: char)
    ensures var parts := Split(s, c); parts[|parts| - 1] == AfterLast(s, c)
  {
    var parts := Split(s, c);
    var last := parts[|parts| - 1];
    if |parts| > 1 {
      JoinedLast(parts, c);
      var front := Joined(parts[..|parts| - 1], c);
      assert s == (front + [c]) + last;
      assert s[|s| - |last|..] == last;
      assert s[|s| - |last| - 1] == c;
    }
    AfterLastUnique(s, c, last);
  }

  // ---------------------------------------------------------------------
  // _repo_name_from_git_url
  // ---------------------------------------------------------------------

  /**
   * The application name of a git URL: the last `/`-separated segment, cut
   * at its first `.`.  It is a single path segment without any dot.
   */
  function RepoNameFromGitUrl(gitUrl: string): (name: string)
    ensures '/' !in name && '.' !in name
    ensures name <= AfterLast(gitUrl, '/')
  {
    BeforeFirst(AfterLast(gitUrl, '/'), '.')
  }

  /** The name is what `git_url.split('/')[-1].split('.')[0]` computes. */
  lemma RepoNameIsSplitOfSplit(gitUrl: string)
    ensures var segments := Split(gitUrl, '/');
            RepoNameFromGitUrl(gitUrl) == Split(segments[|segments| - 1], '.')[0]
  {
    LastPieceIsAfterLast(gitUrl, '/');
    FirstPieceIsBeforeFirst(AfterLast(gitUrl, '/'), '.');
  }

  /** The segment after the last `/` of `front + "/" + segment`. */
  lemma LastSegment(front: string, segment: string)
    requires '/' !in segment
    ensures AfterLast(front + "/" + segment, '/') == segment
  {
    var s := front + "/" + segment;
    assert s[|s| - |segment|..] == segment;
    assert s[|s| - |segment| - 1] == '/';
    AfterLastUnique(s, '/', segment);
  }

  /** `.../repo.git` gives `repo`; `.../a.b.git` gives `a` (cut at the first dot). */
  lemma RepoNameCutsAtFirstDot(front: string, name: string, extension: string)
    requires '/' !in name && '/' !in extension && '.' !in name
    ensures RepoNameFromGitUrl(front + "/" + name + "." + extension) == name
  {
    assert front + "/" + name + "." + extension == front + "/" + (name + "." + extension);
    LastSegment(front, name + "." + extension);
    var segment := name + "." + extension;
    assert segment[|name|] == '.';
    BeforeFirstUnique(segment, '.', name);
  }

  /** A last segment without a dot is returned unchanged. */
  lemma RepoNameKeepsDotlessSegment(front: string, segment: string)
    requires '/' !in segment && '.' !in segment
    ensures RepoNameFromGitUrl(front + "/" + segment) == segment
  {
    LastSegment(front, segment);
    BeforeFirstUnique(segment, '.', segment);
  }

  /** The usual shape of URL: `git://host/group/repo.git` names the application `repo`. */
  lemma RepoNameOfTypicalUrl()
    ensures RepoNameFromGitUrl("git://host/group/repo.git") == "repo"
  {
    assert "git://host/group/repo.git" == "git://host/group" + "/" + "repo" + "." + "git";
    RepoNameCutsAtFirstDot("git://host/group", "repo", "git");
  }

  // ---------------------------------------------------------------------
  // posixpath.join and os.path.commonprefix
  // ---------------------------------------------------------------------

  /**
   * `posixpath.join(a, b)`: an absolute `b` replaces `a`; otherwise `b` is
   * appended, with a `/` in between unless `a` is empty or already ends in one.
   */
  function Join(a: string, b: string): (r: string)
    ensures |b| > 0 && b[0] == '/' ==> r == b
    ensures !(|b| > 0 && b[0] == '/') ==> a <= r && IsSuffix(b, r) && |a| + |b| <= |r| <= |a| + |b| + 1
    ensures !(|b| > 0 && b[0] == '/') && |r| == |a| + |b| + 1 ==> r[|a|] == '/'
  {
    if |b| > 0 && b[0] == '/' then b
    else if a == [] || a[|a| - 1] == '/' then a + b
    else a + "/" + b
  }

  predicate EndsWithSeparator(s: string) {
    |s| > 0 && s[|s| - 1] == '/'
  }

  /** `os.path.join(x, '')` adds one trailing `/` unless `x` is empty or already has one. */
  lemma JoinEmptyAddsSeparator(x: string)
    ensures x != [] ==> EndsWithSeparator(Join(x, ""))
    ensures Join(x, "") == if x == [] || EndsWithSeparator(x) then x else x + "/"
  {
  }

  /** Joining a relative part onto a path that does not end in `/` puts exactly one `/` between them. */
  lemma JoinRelative(a: string, b: string)
    requires a != [] && !EndsWithSeparator(a) && (b == [] || b[0] != '/')
    ensures Join(a, b) == a + "/" + b
  {
  }

  /** Joining `sub/name` onto a directory is joining `sub`, then `name`. */
  lemma JoinUnder(dir: string, sub: string, name: string)
    requires dir != [] && !EndsWithSeparator(dir) && sub != [] && sub[0] != '/' && !EndsWithSeparator(sub)
    requires name == [] || name[0] != '/'
    ensures Join(dir, sub + "/" + name) == Join(dir + "/" + sub, name)
  {
    JoinRelative(dir, sub + "/" + name);
    JoinRelative(dir + "/" + sub, name);
  }

  /** `os.path.commonprefix([a, b])`: the longest common prefix of the two strings. */
  function CommonPrefix(a: string, b: string): (r: string)
    ensures r <= a && r <= b
    ensures |r| == |a| || |r| == |b| || a[|r|] != b[|r|]
    decreases |a|
  {
    if a == [] || b == [] || a[0] != b[0] then []
    else [a[0]] + CommonPrefix(a[1..], b[1..])
  }

  /** The common prefix of `a` and `b` is all of `b` exactly when `b` is a prefix of `a`. */
  lemma CommonPrefixIsSecond(a: string, b: string)
    ensures CommonPrefix(a, b) == b <==> b <= a
  {
  }

  // ---------------------------------------------------------------------
  // _is_subpath
  // ---------------------------------------------------------------------

  /**
   * The guard in front of every recursive delete: both paths are made
   * canonical with `realpath`, a `/` is added to the root, and the path
   * must start with that root and differ from it.
   */
  function IsSubpath(realpath: string -> string, path: string, root: string): (b: bool)
    ensures b <==> Join(realpath(root), "") < realpath(path)
  {
    var absPath := realpath(path);
    var absRoot := Join(realpath(root), "");
    CommonPrefixIsSecond(absPath, absRoot);
    absPath != absRoot && CommonPrefix(absPath, absRoot) == absRoot
  }

  /**
   * For a root written without a trailing `/`, the guard passes exactly for
   * the paths that canonicalise to the root, a `/`, and something more.
   */
  lemma SubpathIsStrictDescendant(realpath: string -> string, path: string, root: string)
    requires realpath(root) != [] && !EndsWithSeparator(realpath(root))
    ensures IsSubpath(realpath, path, root) <==>
            exists rest :: rest != [] && realpath(path) == realpath(root) + "/" + rest
  {
    var p, r := realpath(path), realpath(root) + "/";
    JoinEmptyAddsSeparator(realpath(root));
    var guard := IsSubpath(realpath, path, root);
    assert guard <==> r < p;
    if guard {
      var rest := p[|r|..];
      assert p == realpath(root) + "/" + rest;
    }
  }

  /** A root is never its own subpath: the appended `/` makes the canonical root longer than itself. */
  lemma RootIsNotOwnSubpath(realpath: string -> string, root: string)
    ensures !IsSubpath(realpath, root, root)
  {
  }

  /**
   * A sibling whose name merely starts with the root's name is rejected:
   * after the root comes a character other than `/`.
   */
  lemma SiblingIsNotSubpath(realpath: string -> string, path: string, root: string, tail: string)
    requires realpath(root) != [] && !EndsWithSeparator(realpath(root))
    requires realpath(path) == realpath(root) + tail && tail != [] && tail[0] != '/'
    ensures !IsSubpath(realpath, path, root)
  {
    var n := |realpath(root)|;
    assert realpath(path)[n] == tail[0];
    assert Join(realpath(root), "")[n] == '/';
  }

  /** `/x/projectsX` is not inside `/x/projects`. */
  lemma SiblingExample(realpath: string -> string, path: string, root: string)
    requires realpath(path) == "/x/projectsX" && realpath(root) == "/x/projects"
    ensures !IsSubpath(realpath, path, root)
  {
    assert "/x/projectsX" == "/x/projects" + "X";
    SiblingIsNotSubpath(realpath, path, root, "X");
  }
}

=== FILE: remote.dfy ===
/**
 * The Fabric commands of the script as they run against one remote host: each call issues its
 * commands one at a time, appending them to the host's command log, and
 * every `files.exists` probe asks the host's set of existing paths.  Each
 * task is proved to issue exactly the commands of its plan.
 */
module Remote {
  import opened Paths
  import opened Commands
  import opened Teardown
  import opened Setup

  class Host {
    /** The paths that exist on the host; the commands read it and never change it. */
    const existing: set<string>
    /** Every command issued so far, in order. */
    var log: seq<Step>

    constructor(existing: set<string>)
      ensures this.existing == existing && log == []
    {
      this.existing := existing;
      log := [];
    }

    /** `files.exists(path)`, with `path` already resolved against the enclosing `cd` blocks. */
    predicate Exists(path: string) {
      path in existing
    }

    /** `run(cmd)` inside `cd(cwd)`. */
    method Run(cwd: string, cmd: Cmd)
      modifies this
      ensures log == old(log) + [Exec(Login, cwd, cmd)]
    {
      log := log + [Exec(Login, cwd, cmd)];
    }

    /** `sudo(cmd)` inside `cd(cwd)`. */
    method Sudo(cwd: string, cmd: Cmd)
      modifies this
      ensures log == old(log) + [Exec(Root, cwd, cmd)]
    {
      log := log + [Exec(Root, cwd, cmd)];
    }

    /** `files.upload_template(filename=template, destination=destination, use_sudo=True)`. */
    method UploadTemplate(template: string, destination: string)
      modifies this
      ensures log == old(log) + [Upload(template, destination)]
    {
      log := log + [Upload(template, destination)];
    }

    /** Removes `dir` if it exists and then its `parent` if that exists and is empty. */
    method RemoveWithParentDir(dir: string, parent: string)
      modifies this
      ensures log == old(log) + RemoveWithParent(dir, parent, existing)
    {
      if Exists(dir) {
        Run("", RemoveTree(dir));
        if Exists(parent) {
          Run("", RemoveDirIfEmpty(parent));
        }
      }
    }

    /** The removals of `clean` once both guards have passed: the application first, then its virtualenv. */
    method RemoveBoth(appDir: string, venvDir: string)
      modifies this
      ensures log == old(log) + (RemoveWithParent(appDir, ProjectsDir, existing) + RemoveWithParent(venvDir, VenvsDir, existing))
    {
      RemoveWithParentDir(appDir, ProjectsDir);
      RemoveWithParentDir(venvDir, VenvsDir);
    }

    /**
     * `clean(app_name)`, with the prompt's answer `typed`, the confirmation
     * answer `confirmed` and the local `os.path.realpath`, and with the
     * application name checked against the allow-list of SafeCleanPlan
     * before it is used.  An abort issues nothing.
     */
    method Clean(appName: string, typed: string, confirmed: bool, realpath: string -> string)
      returns (outcome: Outcome)
      modifies this
      ensures log == old(log) + SafeCleanPlan(appName, typed, confirmed, realpath, existing).steps
      ensures outcome == SafeCleanPlan(appName, typed, confirmed, realpath, existing).outcome
    {
      ghost var plan := SafeCleanPlan(appName, typed, confirmed, realpath, existing);
      var name := appName;
      if name == "" {
        name := typed;
      }
      if name == "" {
        assert plan == Plan([], Aborted(NoAppName));
        return Aborted(NoAppName);
      }
      if !IsPlainName(name) {
        return Aborted(UnsafeAppName(name));
      }
      assert plan == CleanPlan(appName, typed, confirmed, realpath, existing);
      if !confirmed {
        assert plan == Plan([], Aborted(Declined));
        return Aborted(Declined);
      }
      var appDir := Join(ProjectsDir, name);
      var venvDir := Join(VenvsDir, name);
      if !IsSubpath(realpath, appDir, ProjectsDir) {
        assert plan == Plan([], Aborted(InvalidPath(appDir)));
        return Aborted(InvalidPath(appDir));
      }
      if !IsSubpath(realpath, venvDir, VenvsDir) {
        assert plan == Plan([], Aborted(InvalidPath(venvDir)));
        return Aborted(InvalidPath(venvDir));
      }
      RemoveBoth(appDir, venvDir);
      outcome := Completed;
    }

    /** Inside `cd('~/projects')`: pull in the checkout when it exists, clone it otherwise. */
    method FetchCheckout(appName: string, gitUrl: string)
      modifies this
      ensures log == old(log) + [AppFetch(appName, gitUrl, existing)]
    {
      if Probe(ProjectsDir, appName, existing) {
        Run(Cd(ProjectsDir, appName), GitPull);
      } else {
        Run(ProjectsDir, GitClone(gitUrl, appName));
      }
    }

    /** Inside `cd('/var/webapps')`: link `printedDir` under the application's name unless that entry exists. */
    method LinkCheckout(appName: string, printedDir: string)
      modifies this
      ensures log == old(log) + AppLink(appName, printedDir, existing)
    {
      if !Probe(WebappsDir, appName, existing) {
        Sudo(WebappsDir, Symlink(printedDir, appName));
      }
    }

    /** `_setup_app(app_name, git_url)`; `printedDir` is what `pwd` prints in the checkout. */
    method SetupApp(appName: string, gitUrl: string, printedDir: string)
      modifies this
      ensures log == old(log) + SetupAppPlan(appName, gitUrl, printedDir, existing)
    {
      ghost var fetch := [AppFetch(appName, gitUrl, existing)];
      ghost var locate := AppLocate(appName);
      ghost var link := AppLink(appName, printedDir, existing);
      ghost var done := old(log);
      Sudo("", AptInstall("git python-pip python-dev"));
      Run("", MakeDirs(ProjectsDir));
      done := done + AppPrepare;
      assert log == done;
      FetchCheckout(appName, gitUrl);
      done := done + fetch;
      Run(Cd("", Join(ProjectsDir, appName)), PrintWorkingDir);
      Sudo("", MakeDirs(WebappsDir));
      done := done + locate;
      assert log == done;
      LinkCheckout(appName, printedDir);
      assert done + link == old(log) + (AppPrepare + fetch + locate + link);
    }

    /** `_setup_supervisor(app_name)`. */
    method SetupSupervisor(appName: string)
      modifies this
      ensures log == old(log) + SetupSupervisorPlan(appName, existing)
    {
      Sudo("", AptInstall("supervisor"));
      ghost var installed := log;
      var confFile := SupervisorConf(appName);
      if !Exists(confFile) {
        UploadTemplate("supervisord.conf.sample", confFile);
        Sudo("", RestartService("supervisor"));
        assert log == installed + [Upload("supervisord.conf.sample", confFile), Exec(Root, "", RestartService("supervisor"))];
      }
    }

    /** Inside `cd(sites-enabled)`: link the site unless an entry of its name is there. */
    method EnableSite(appName: string)
      modifies this
      ensures log == old(log) + NginxEnable(appName, existing)
    {
      var enabledDir := Cd("", NginxEnabledDir);
      if !Probe(enabledDir, appName, existing) {
        Sudo(enabledDir, NginxEnableLink(appName));
      }
    }

    /** `_setup_nginx(app_name)`. */
    method SetupNginx(appName: string)
      modifies this
      ensures log == old(log) + SetupNginxPlan(appName, existing)
    {
      Sudo("", AptInstall("nginx"));
      ghost var installed := log;
      var confFile := NginxConf(appName);
      if !Exists(confFile) {
        UploadTemplate("nginx.conf.sample", confFile);
        EnableSite(appName);
        Sudo("", RestartService("nginx"));
        assert log == installed + ([Upload("nginx.conf.sample", confFile)] + NginxEnable(appName, existing)
                                   + [Exec(Root, "", RestartService("nginx"))]);
      }
    }
  }
}

=== FILE: setup.dfy ===
/**
 * The command plans of the provisioning steps `_setup_app`,
 * `_setup_supervisor` and `_setup_nginx`: which remote commands each issues,
 * given the set of paths that exist on the host.  Each step is idempotent by
 * construction: it probes for what it would create and skips it when present.
 */
module Setup {
  import opened Paths
  import opened Commands
  import opened Shell

  /** Where the running checkouts are linked from. */
  const WebappsDir: string := "/var/webapps"

  /** `os.path.join('/', 'etc', 'supervisor', 'conf.d')`. */
  const SupervisorConfDir: string := "/etc/supervisor/conf.d"
  /** `os.path.join('/', 'etc', 'nginx')`. */
  const NginxDir: string := "/etc/nginx"
  /** `os.path.join(nginx_dir, 'sites-available')`. */
  const NginxAvailableDir: string := NginxDir + "/" + "sites-available"
  /** The directory `os.path.join(nginx_dir, 'sites-enabled')`. */
  const NginxEnabledDir: string := NginxDir + "/" + "sites-enabled"

  /** The checkout of an application, as the `cd` into it and `pwd` name it. */
  function CheckoutDir(appName: string): string { Join(ProjectsDir, appName) }

  /** The supervisor program file of an application. */
  function SupervisorConf(appName: string): string { Join(SupervisorConfDir, appName + ".conf") }

  /** The nginx site file of an application. */
  function NginxConf(appName: string): string { Join(NginxAvailableDir, appName) }

  /** `ln -s ../sites-available/<name> <name>`, issued inside the sites-enabled directory. */
  function NginxEnableLink(appName: string): Cmd { Symlink("../sites-available/" + appName, appName) }

  // ---------------------------------------------------------------------
  // The plans
  // ---------------------------------------------------------------------

  /** The start of `_setup_app`: install git and pip, then make sure `~/projects` exists. */
  const AppPrepare: seq<Step> :=
    [Exec(Root, "", AptInstall("git python-pip python-dev")), Exec(Login, "", MakeDirs(ProjectsDir))]

  /** Pull inside the checkout when the probe finds it; clone it into `~/projects` otherwise. */
  function AppFetch(appName: string, gitUrl: string, existing: set<string>): Step {
    if Probe(ProjectsDir, appName, existing) then Exec(Login, Cd(ProjectsDir, appName), GitPull)
    else Exec(Login, ProjectsDir, GitClone(gitUrl, appName))
  }

  /** Ask the checkout for its directory with `pwd`, then make sure `/var/webapps` exists. */
  function AppLocate(appName: string): seq<Step> {
    [Exec(Login, CheckoutDir(appName), PrintWorkingDir), Exec(Root, "", MakeDirs(WebappsDir))]
  }

  /** Link the directory `pwd` printed into `/var/webapps`, unless the probe finds an entry of that name. */
  function AppLink(appName: string, printedDir: string, existing: set<string>): seq<Step> {
    if Probe(WebappsDir, appName, existing) then []
    else [Exec(Root, WebappsDir, Symlink(printedDir, appName))]
  }

  /**
   * `_setup_app(app_name, git_url)`: install git and pip, make sure
   * `~/projects` exists, pull the checkout if it is there and clone it
   * otherwise, ask the checkout for its directory with `pwd` (whose answer
   * is `printedDir`), and link that directory into `/var/webapps` unless a
   * link of that name is already there.  It uploads nothing and removes
   * nothing.
   */
  function SetupAppPlan(appName: string, gitUrl: string, printedDir: string,
                        existing: set<string>): (s: seq<Step>)
    ensures RemovesNothing(s)
    ensures forall st :: st in s ==> !st.Upload?
  {
    AppPrepare + [AppFetch(appName, gitUrl, existing)] + AppLocate(appName) + AppLink(appName, printedDir, existing)
  }

  /**
   * `_setup_supervisor(app_name)`: install supervisor; when the program
   * file is missing, render it from `supervisord.conf.sample` and restart
   * supervisor so that it picks the program up.  Nothing is removed, and
   * the only upload is of the program file, when it was absent.
   */
  function SetupSupervisorPlan(appName: string, existing: set<string>): (s: seq<Step>)
    ensures RemovesNothing(s)
    ensures UploadsOnlyTo(s, SupervisorConf(appName)) && NoOverwrite(s, existing)
  {
    [Exec(Root, "", AptInstall("supervisor"))]
    + (if SupervisorConf(appName) in existing then []
       else [Upload("supervisord.conf.sample", SupervisorConf(appName)), Exec(Root, "", RestartService("supervisor"))])
  }

  /** Inside sites-enabled: link the site unless the probe finds an entry of its name. */
  function NginxEnable(appName: string, existing: set<string>): seq<Step> {
    if Probe(NginxEnabledDir, appName, existing) then []
    else [Exec(Root, NginxEnabledDir, NginxEnableLink(appName))]
  }

  /**
   * `_setup_nginx(app_name)`: install nginx; when the site file is missing,
   * render it from `nginx.conf.sample`, enable the site with a relative link
   * unless one of that name is already there, and restart nginx.  Nothing
   * is removed, and the only upload is of the site file, when it was absent.
   */
  function SetupNginxPlan(appName: string, existing: set<string>): (s: seq<Step>)
    ensures RemovesNothing(s)
    ensures UploadsOnlyTo(s, NginxConf(appName)) && NoOverwrite(s, existing)
  {
    [Exec(Root, "", AptInstall("nginx"))]
    + (if NginxConf(appName) in existing then []
       else [Upload("nginx.conf.sample", NginxConf(appName))] + NginxEnable(appName, existing)
            + [Exec(Root, "", RestartService("nginx"))])
  }

  // ---------------------------------------------------------------------
  // Properties shared by the plans
  // ---------------------------------------------------------------------

  /** No upload replaces a file: every template goes to a path that was absent. */
  predicate NoOverwrite(steps: seq<Step>, existing: set<string>) {
    forall i :: 0 <= i < |steps| && steps[i].Upload? ==> steps[i].destination !in existing
  }

  /** No step deletes anything: no `rm -rf` and no `rmdir`. */
  predicate RemovesNothing(steps: seq<Step>) {
    forall st :: st in steps && st.Exec? ==> !st.cmd.RemoveTree? && !st.cmd.RemoveDirIfEmpty?
  }

  /** A service is restarted only after a configuration file was uploaded. */
  predicate RestartFollowsUpload(steps: seq<Step>) {
    forall i :: 0 <= i < |steps| && IsRestart(steps[i]) ==>
      exists j :: 0 <= j < i && IsUpload(steps[j])
  }

  /** Every upload in a plan goes to one given destination. */
  predicate UploadsOnlyTo(steps: seq<Step>, destination: string) {
    forall i :: 0 <= i < |steps| && steps[i].Upload? ==> steps[i].destination == destination
  }

  /** The count of a one-step log. */
  lemma CountOne(s: Step, p: Step -> bool)
    ensures Count([s], p) == if p(s) then 1 else 0
  {
    assert [s][1..] == [];
  }

  // ---------------------------------------------------------------------
  // _setup_app
  // ---------------------------------------------------------------------

  /**
   * The checkout is fetched exactly once: pulled when the probe finds it
   * and cloned otherwise, never both.
   */
  lemma {:induction false} SetupAppFetchesOnce(appName: string, gitUrl: string, printedDir: string,
                                               existing: set<string>)
    ensures var s := SetupAppPlan(appName, gitUrl, printedDir, existing);
            && Count(s, IsPull) + Count(s, IsClone) == 1
            && (Count(s, IsPull) == 1 <==> Probe(ProjectsDir, appName, existing))
  {
    var fetch := AppFetch(appName, gitUrl, existing);
    SetupAppCount(appName, gitUrl, printedDir, existing, IsPull);
    SetupAppCount(appName, gitUrl, printedDir, existing, IsClone);
    CountOne(fetch, IsPull);
    CountOne(fetch, IsClone);
  }

  /**
   * The application is linked into `/var/webapps` at most once, only when
   * the probe finds no entry of its name there, and the link points at the
   * directory the checkout reported.
   */
  lemma {:induction false} SetupAppLinksOnlyWhenAbsent(appName: string, gitUrl: string, printedDir: string,
                                                       existing: set<string>)
    ensures var s := SetupAppPlan(appName, gitUrl, printedDir, existing);
            && Count(s, IsSymlink) == (if Probe(WebappsDir, appName, existing) then 0 else 1)
            && forall st :: st in s && IsSymlink(st) ==> st == Exec(Root, WebappsDir, Symlink(printedDir, appName))
  {
    SetupAppCount(appName, gitUrl, printedDir, existing, IsSymlink);
    CountOne(AppFetch(appName, gitUrl, existing), IsSymlink);
    if !Probe(WebappsDir, appName, existing) {
      CountOne(Exec(Root, WebappsDir, Symlink(printedDir, appName)), IsSymlink);
    }
  }

  /**
   * An empty application name (the name of a URL that ends in `/`) is
   * never found by `files.exists`, whatever exists on the host: the
   * checkout is cloned, and a link is made in `/var/webapps`.
   */
  lemma {:induction false} EmptyNameClonesAndLinks(gitUrl: string, printedDir: string, existing: set<string>)
    ensures var s := SetupAppPlan("", gitUrl, printedDir, existing);
            && Count(s, IsClone) == 1 && Count(s, IsPull) == 0
            && Count(s, IsSymlink) == 1
  {
    SetupAppFetchesOnce("", gitUrl, printedDir, existing);
    SetupAppLinksOnlyWhenAbsent("", gitUrl, printedDir, existing);
  }

  /**
   * How many steps of a `_setup_app` plan satisfy `p`, piece by piece;
   * the fixed pieces hold no pull, clone or link.
   */
  lemma SetupAppCount(appName: string, gitUrl: string, printedDir: string,
                      existing: set<string>, p: Step -> bool)
    requires p == IsPull || p == IsClone || p == IsSymlink
    ensures var s := SetupAppPlan(appName, gitUrl, printedDir, existing);
            Count(s, p) == Count([AppFetch(appName, gitUrl, existing)], p) + Count(AppLink(appName, printedDir, existing), p)
  {
    var fetch, locate, link := [AppFetch(appName, gitUrl, existing)], AppLocate(appName), AppLink(appName, printedDir, existing);
    CountConcat(AppPrepare + fetch + locate, link, p);
    CountConcat(AppPrepare + fetch, locate, p);
    CountConcat(AppPrepare, fetch, p);
    assert forall i :: 0 <= i < |AppPrepare| ==> !p(AppPrepare[i]);
    assert forall i :: 0 <= i < |locate| ==> !p(locate[i]);
  }

  /**
   * For a non-empty name that does not start with `~`, the directory that
   * is pulled in, or cloned into, is the one `pwd` is asked about and whose
   * answer is linked: a pull runs inside the checkout, and a clone of the
   * given URL runs in `~/projects` with the name as its directory operand.
   */
  lemma FetchedCheckoutIsLinked(appName: string, gitUrl: string, existing: set<string>)
    requires appName != [] && appName[0] != '~'
    ensures var fetch := AppFetch(appName, gitUrl, existing);
            && (fetch.cmd.GitPull? ==> fetch.cwd == CheckoutDir(appName))
            && (fetch.cmd.GitClone? ==> fetch.cwd == ProjectsDir && fetch.cmd.url == gitUrl && fetch.cmd.name == appName &&
                                        Cd(fetch.cwd, fetch.cmd.name) == CheckoutDir(appName))
            && AppLocate(appName)[0] == Exec(Login, CheckoutDir(appName), PrintWorkingDir)
  {
  }

  /**
   * The clone line reaches git with the name as its directory operand, and
   * with none at all when the name is empty: git then picks the directory
   * from the URL, not the `~/projects/` that `pwd` is asked about.
   */
  lemma CloneDirectoryOperand(gitUrl: string, appName: string)
    requires gitUrl != [] && HasNoBlank(gitUrl) && HasNoBlank(appName)
    ensures Words(GitClone(gitUrl, appName).Line()) ==
            ["git", "clone", gitUrl] + (if appName == [] then [] else [appName])
  {
    var operands := gitUrl + " " + appName;
    GitCloneLine(gitUrl, appName);
    TwoWordsThenSpace("git", "clone", operands);
    WordThenSpace(gitUrl, appName);
    if appName != [] {
      SingleWord(appName);
    }
  }

  // ---------------------------------------------------------------------
  // _setup_supervisor
  // ---------------------------------------------------------------------

  /**
   * Supervisor is installed every time; the program file is uploaded, and
   * supervisor restarted, exactly when the file was missing, and the
   * restart follows the upload.
   */
  lemma {:induction false} SupervisorSetupIsIdempotent(appName: string, existing: set<string>)
    ensures var s := SetupSupervisorPlan(appName, existing);
            var missing := if SupervisorConf(appName) in existing then 0 else 1;
            && Count(s, IsUpload) == missing
            && Count(s, IsRestart) == missing
            && RestartFollowsUpload(s)
  {
    var s := SetupSupervisorPlan(appName, existing);
    var install, reload := [s[0]], s[1..];
    assert s == install + reload;
    CountConcat(install, reload, IsUpload);
    CountConcat(install, reload, IsRestart);
    CountOne(s[0], IsUpload);
    CountOne(s[0], IsRestart);
    if SupervisorConf(appName) !in existing {
      assert reload == [s[1]] + [s[2]];
      CountConcat([s[1]], [s[2]], IsUpload);
      CountConcat([s[1]], [s[2]], IsRestart);
      CountOne(s[1], IsUpload);
      CountOne(s[1], IsRestart);
      CountOne(s[2], IsUpload);
      CountOne(s[2], IsRestart);
      assert IsUpload(s[1]);
    }
  }

  // ---------------------------------------------------------------------
  // _setup_nginx
  // ---------------------------------------------------------------------

  /**
   * The site file is uploaded, and nginx restarted, exactly when the file
   * was missing; no file is overwritten and the restart comes after the
   * upload.
   */
  lemma {:induction false} NginxSetupIsIdempotent(appName: string, existing: set<string>)
    ensures var s := SetupNginxPlan(appName, existing);
            var missing := if NginxConf(appName) in existing then 0 else 1;
            && Count(s, IsUpload) == missing
            && Count(s, IsRestart) == missing
            && UploadsOnlyTo(s, NginxConf(appName))
            && NoOverwrite(s, existing)
            && RestartFollowsUpload(s)
  {
    var s := SetupNginxPlan(appName, existing);
    var install, upload, restart :=
      Exec(Root, "", AptInstall("nginx")), Upload("nginx.conf.sample", NginxConf(appName)), Exec(Root, "", RestartService("nginx"));
    NginxCount(appName, existing, IsUpload);
    NginxCount(appName, existing, IsRestart);
    CountOne(install, IsUpload);
    CountOne(install, IsRestart);
    if NginxConf(appName) !in existing {
      CountOne(upload, IsUpload);
      CountOne(upload, IsRestart);
      CountOne(restart, IsUpload);
      CountOne(restart, IsRestart);
      assert s[0] == install && s[1] == upload;
      forall i | 0 <= i < |s| && IsRestart(s[i])
        ensures exists j :: 0 <= j < i && IsUpload(s[j])
      {
        assert IsUpload(s[1]);
      }
    }
  }

  /**
   * The site is enabled only together with a fresh site file: the link is
   * made exactly when the site file was missing and the probe finds no
   * entry of the application's name in sites-enabled.
   */
  lemma {:induction false} NginxEnablesOnlyNewSite(appName: string, existing: set<string>)
    ensures var s := SetupNginxPlan(appName, existing);
            && Count(s, IsSymlink) ==
                 (if NginxConf(appName) !in existing && !Probe(NginxEnabledDir, appName, existing) then 1 else 0)
            && forall st :: st in s && IsSymlink(st) ==> st == Exec(Root, NginxEnabledDir, NginxEnableLink(appName))
  {
    NginxCount(appName, existing, IsSymlink);
    CountOne(Exec(Root, "", AptInstall("nginx")), IsSymlink);
    if NginxConf(appName) !in existing {
      CountOne(Upload("nginx.conf.sample", NginxConf(appName)), IsSymlink);
      CountOne(Exec(Root, "", RestartService("nginx")), IsSymlink);
      if !Probe(NginxEnabledDir, appName, existing) {
        CountOne(Exec(Root, NginxEnabledDir, NginxEnableLink(appName)), IsSymlink);
      }
    }
  }

  /**
   * How many steps of a `_setup_nginx` plan satisfy `p`: the install step,
   * and when the site file is missing the upload, the optional link and the
   * restart, each counted alone.
   */
  lemma NginxCount(appName: string, existing: set<string>, p: Step -> bool)
    ensures var s := SetupNginxPlan(appName, existing);
            var install, upload, restart :=
              Exec(Root, "", AptInstall("nginx")), Upload("nginx.conf.sample", NginxConf(appName)),
              Exec(Root, "", RestartService("nginx"));
            Count(s, p) == Count([install], p)
              + (if NginxConf(appName) in existing then 0
                 else Count([upload], p) + Count(NginxEnable(appName, existing), p) + Count([restart], p))
  {
    var install, upload, restart :=
      Exec(Root, "", AptInstall("nginx")), Upload("nginx.conf.sample", NginxConf(appName)),
      Exec(Root, "", RestartService("nginx"));
    var enable := NginxEnable(appName, existing);
    if NginxConf(appName) in existing {
      assert SetupNginxPlan(appName, existing) == [install] + [];
      CountConcat([install], [], p);
    } else {
      var reload := [upload] + enable + [restart];
      CountConcat([install], reload, p);
      CountConcat([upload] + enable, [restart], p);
      CountConcat([upload], enable, p);
    }
  }

  /**
   * For the empty name the site file is the `sites-available` directory
   * itself, which installing the nginx package creates; only a host where
   * that directory is already in the set skips the upload.
   */
  lemma EmptyNameSiteFileIsDirectory(existing: set<string>)
    ensures NginxConf("") == NginxAvailableDir + "/"
    ensures NginxAvailableDir + "/" in existing <==> Count(SetupNginxPlan("", existing), IsUpload) == 0
  {
    NginxSetupIsIdempotent("", existing);
  }

  /**
   * The relative link target resolves to the uploaded site file: the link
   * lives in `sites-enabled`, whose `..` is the nginx directory, and from
   * there `sites-available/<name>` is the site file.
   */
  lemma NginxLinkReachesSiteFile(appName: string)
    requires appName != [] && '/' !in appName
    ensures var relative := "sites-available/" + appName;
            NginxEnableLink(appName).target == "../" + relative && Join(NginxDir, relative) == NginxConf(appName)
  {
    assert "sites-available/" + appName == "sites-available" + "/" + appName;
    assert "../sites-available/" + appName == "../" + ("sites-available/" + appName);
    JoinUnder(NginxDir, "sites-available", appName);
  }
}

=== FILE: shell.dfy ===
/**
 * How a POSIX shell cuts an unquoted command line into words: at runs of
 * blanks (the default field separators space, tab and newline).  The
 * deployment script formats its remote commands as unquoted strings, so
 * this decides which operands a command really receives.
 */
module Shell {

  predicate IsBlank(ch: char) {
    ch == ' ' || ch == '\t' || ch == '\n'
  }

  predicate HasNoBlank(s: string) {
    forall i :: 0 <= i < |s| ==> !IsBlank(s[i])
  }

  /** The word at the very start of `s`: everything up to the first blank. */
  function LeadingWord(s: string): (w: string)
    ensures w <= s && HasNoBlank(w)
    ensures |w| < |s| ==> IsBlank(s[|w|])
    decreases |s|
  {
    if s == [] || IsBlank(s[0]) then [] else [s[0]] + LeadingWord(s[1..])
  }

  /** The words of a command line: its maximal blank-free stretches, in order. */
  function Words(s: string): (words: seq<string>)
    ensures forall i :: 0 <= i < |words| ==> words[i] != [] && HasNoBlank(words[i])
    decreases |s|
  {
    if s == [] then []
    else if IsBlank(s[0]) then Words(s[1..])
    else
      var w := LeadingWord(s);
      [w] + Words(s[|w|..])
  }

  /** A blank-free string is the whole leading word of anything it starts before a blank. */
  lemma {:induction false} LeadingWordOf(w: string, rest: string)
    requires HasNoBlank(w)
    requires rest == [] || IsBlank(rest[0])
    ensures LeadingWord(w + rest) == w
    decreases |w|
  {
    if w != [] {
      assert (w + rest)[1..] == w[1..] + rest;
      LeadingWordOf(w[1..], rest);
    }
  }

  /** A non-empty blank-free string is a single word. */
  lemma SingleWord(w: string)
    requires w != [] && HasNoBlank(w)
    ensures Words(w) == [w]
  {
    LeadingWordOf(w, []);
    assert w + [] == w;
  }

  /** A word followed by one space: the rest of the line supplies the remaining words. */
  lemma WordThenSpace(w: string, rest: string)
    requires w != [] && HasNoBlank(w)
    ensures Words(w + " " + rest) == [w] + Words(rest)
  {
    var s := w + " " + rest;
    LeadingWordOf(w, " " + rest);
    assert s == w + (" " + rest);
    assert s[|w|..] == " " + rest;
    assert (" " + rest)[1..] == rest;
  }

  /** Two blank-free words with one space between them. */
  lemma TwoWords(first: string, second: string)
    requires first != [] && HasNoBlank(first) && second != [] && HasNoBlank(second)
    ensures Words(first + " " + second) == [first, second]
  {
    WordThenSpace(first, second);
    SingleWord(second);
  }

  /** Two words, each followed by one space, in front of the rest of a line. */
  lemma TwoWordsThenSpace(first: string, second: string, rest: string)
    requires first != [] && HasNoBlank(first) && second != [] && HasNoBlank(second)
    ensures Words(first + " " + (second + " " + rest)) == [first, second] + Words(rest)
  {
    WordThenSpace(second, rest);
    WordThenSpace(first, second + " " + rest);
  }

  /** Joining two blank-free strings leaves no blank. */
  lemma NoBlankConcat(a: string, b: string)
    requires HasNoBlank(a) && HasNoBlank(b)
    ensures HasNoBlank(a + b)
  {
    assert forall i :: |a| <= i < |a + b| ==> (a + b)[i] == b[i - |a|];
  }
}

=== FILE: teardown.dfy ===
/**
 * The command plan of the `clean` task: which remote commands tearing an
 * application down issues, given the operator's answers, the canonicaliser
 * `realpath` and the set of paths that exist on the host.
 */
module Teardown {
  import opened Paths
  import opened Shell
  import opened Commands

  datatype AbortReason =
    | NoAppName                    // still no name after the prompt
    | Declined                     // "Are you sure?" answered no
    | InvalidPath(path: string)    // a guard assertion failed
    | UnsafeAppName(name: string)  // only SafeCleanPlan: the name would be split by the shell

  datatype Outcome = Completed | Aborted(reason: AbortReason)

  /** The commands a run issues and how it ends. */
  datatype Plan = Plan(steps: seq<Step>, outcome: Outcome)

  /** The name argument, or, when it is empty, the name typed at the prompt. */
  function ChosenAppName(appName: string, typed: string): string {
    if appName != "" then appName else typed
  }

  function AppDir(name: string): string { Join(ProjectsDir, name) }
  function VenvDir(name: string): string { Join(VenvsDir, name) }

  /**
   * Removing one directory: `rm -rf dir` if it exists, and right after it
   * `rmdir --ignore-fail-on-non-empty parent` if the parent exists.
   */
  function RemoveWithParent(dir: string, parent: string, existing: set<string>): (r: seq<Step>)
    ensures r == [] <==> dir !in existing
    ensures |r| <= 2 && (|r| == 2 <==> dir in existing && parent in existing)
    ensures r != [] ==> r[0] == Exec(Login, "", RemoveTree(dir))
    ensures |r| == 2 ==> r[1] == Exec(Login, "", RemoveDirIfEmpty(parent))
  {
    if dir !in existing then []
    else [Exec(Login, "", RemoveTree(dir))]
         + (if parent in existing then [Exec(Login, "", RemoveDirIfEmpty(parent))] else [])
  }

  /**
   * `clean(app_name)`: resolve the name, ask for confirmation, check both
   * directories with the guard, then remove the application directory and
   * after it the virtualenv directory.
   */
  function CleanPlan(appName: string, typed: string, confirmed: bool,
                     realpath: string -> string, existing: set<string>): (p: Plan)
    ensures p.outcome.Aborted? ==> p.steps == []
    ensures var name := ChosenAppName(appName, typed);
            p.outcome == Completed <==>
              name != "" && confirmed &&
              IsSubpath(realpath, AppDir(name), ProjectsDir) &&
              IsSubpath(realpath, VenvDir(name), VenvsDir)
    ensures var name := ChosenAppName(appName, typed);
            p.outcome == Completed ==>
              p.steps == RemoveWithParent(AppDir(name), ProjectsDir, existing)
                         + RemoveWithParent(VenvDir(name), VenvsDir, existing)
  {
    var name := ChosenAppName(appName, typed);
    if name == "" then Plan([], Aborted(NoAppName))
    else if !confirmed then Plan([], Aborted(Declined))
    else
      var appDir, venvDir := AppDir(name), VenvDir(name);
      if !IsSubpath(realpath, appDir, ProjectsDir) then Plan([], Aborted(InvalidPath(appDir)))
      else if !IsSubpath(realpath, venvDir, VenvsDir) then Plan([], Aborted(InvalidPath(venvDir)))
      else
        Plan(RemoveWithParent(appDir, ProjectsDir, existing)
             + RemoveWithParent(venvDir, VenvsDir, existing), Completed)
  }

  /** Which abort: no name first, then a refusal, then the application guard, then the virtualenv guard. */
  lemma CleanAbortReasons(appName: string, typed: string, confirmed: bool,
                          realpath: string -> string, existing: set<string>)
    ensures var name := ChosenAppName(appName, typed);
            var p := CleanPlan(appName, typed, confirmed, realpath, existing);
            && (name == "" ==> p.outcome == Aborted(NoAppName))
            && (name != "" && !confirmed ==> p.outcome == Aborted(Declined))
            && (name != "" && confirmed && !IsSubpath(realpath, AppDir(name), ProjectsDir) ==>
                  p.outcome == Aborted(InvalidPath(AppDir(name))))
            && (name != "" && confirmed && IsSubpath(realpath, AppDir(name), ProjectsDir) &&
                !IsSubpath(realpath, VenvDir(name), VenvsDir) ==>
                  p.outcome == Aborted(InvalidPath(VenvDir(name))))
  {
  }

  /**
   * Two removals in a row: every `rm -rf` is of one of the two directories
   * and that directory exists; every `rmdir` is of an existing parent and
   * comes right after the `rm -rf` of its own directory.
   */
  lemma RemovalPairs(dir1: string, parent1: string, dir2: string, parent2: string, existing: set<string>)
    ensures var s := RemoveWithParent(dir1, parent1, existing) + RemoveWithParent(dir2, parent2, existing);
            forall i :: 0 <= i < |s| && s[i].Exec? && s[i].cmd.RemoveTree? ==>
              (s[i].cmd.path == dir1 && dir1 in existing) || (s[i].cmd.path == dir2 && dir2 in existing)
    ensures var s := RemoveWithParent(dir1, parent1, existing) + RemoveWithParent(dir2, parent2, existing);
            forall i :: 0 <= i < |s| && s[i].Exec? && s[i].cmd.RemoveDirIfEmpty? ==>
              0 < i &&
              ((s[i].cmd.path == parent1 && parent1 in existing && s[i - 1] == Exec(Login, "", RemoveTree(dir1))) ||
               (s[i].cmd.path == parent2 && parent2 in existing && s[i - 1] == Exec(Login, "", RemoveTree(dir2))))
  {
    var a := RemoveWithParent(dir1, parent1, existing);
    var v := RemoveWithParent(dir2, parent2, existing);
    var s := a + v;
    assert forall i :: 0 <= i < |a| ==> s[i] == a[i];
    assert forall i :: |a| <= i < |s| ==> s[i] == v[i - |a|];
  }

  /**
   * No recursive delete without the guard: every `rm -rf` is of the
   * application or virtualenv directory, that directory exists, and it
   * passed the guard against its own root.
   */
  lemma CleanRemovesOnlyGuardedPaths(appName: string, typed: string, confirmed: bool,
                                     realpath: string -> string, existing: set<string>)
    ensures var name := ChosenAppName(appName, typed);
            var p := CleanPlan(appName, typed, confirmed, realpath, existing);
            forall i :: 0 <= i < |p.steps| && p.steps[i].Exec? && p.steps[i].cmd.RemoveTree? ==>
              var path := p.steps[i].cmd.path;
              path in existing &&
              ((path == AppDir(name) && IsSubpath(realpath, path, ProjectsDir)) ||
               (path == VenvDir(name) && IsSubpath(realpath, path, VenvsDir)))
  {
    var name := ChosenAppName(appName, typed);
    RemovalPairs(AppDir(name), ProjectsDir, VenvDir(name), VenvsDir, existing);
  }

  /**
   * A parent is pruned only right after a child was removed from it, and only
   * when it exists: every `rmdir` follows the `rm -rf` of the directory
   * inside it.
   */
  lemma CleanPrunesParentOnlyAfterRemoval(appName: string, typed: string, confirmed: bool,
                                          realpath: string -> string, existing: set<string>)
    ensures var name := ChosenAppName(appName, typed);
            var p := CleanPlan(appName, typed, confirmed, realpath, existing);
            forall i :: 0 <= i < |p.steps| && p.steps[i].Exec? && p.steps[i].cmd.RemoveDirIfEmpty? ==>
              var parent := p.steps[i].cmd.path;
              0 < i && parent in existing && (parent == ProjectsDir || parent == VenvsDir) &&
              p.steps[i - 1] == Exec(Login, "", RemoveTree(Join(parent, name)))
  {
    var name := ChosenAppName(appName, typed);
    if CleanPlan(appName, typed, confirmed, realpath, existing).outcome == Completed {
      RemovalsPruneTheirParents(name, existing);
    }
  }

  /** The removals of an application and its virtualenv prune each parent right after its child. */
  lemma RemovalsPruneTheirParents(name: string, existing: set<string>)
    ensures var s := RemoveWithParent(AppDir(name), ProjectsDir, existing) + RemoveWithParent(VenvDir(name), VenvsDir, existing);
            forall i :: 0 <= i < |s| && s[i].Exec? && s[i].cmd.RemoveDirIfEmpty? ==>
              var parent := s[i].cmd.path;
              0 < i && parent in existing && (parent == ProjectsDir || parent == VenvsDir) &&
              s[i - 1] == Exec(Login, "", RemoveTree(Join(parent, name)))
  {
    RemovalPairs(AppDir(name), ProjectsDir, VenvDir(name), VenvsDir, existing);
  }

  /** One removal pair: `rm -rf dir` or `rmdir --ignore-fail-on-non-empty parent`. */
  predicate RemovesIn(step: Step, dir: string, parent: string) {
    step == Exec(Login, "", RemoveTree(dir)) || step == Exec(Login, "", RemoveDirIfEmpty(parent))
  }

  /** Of two removal pairs in a row over different directories, every step of the first precedes every step of the second. */
  lemma PairsInOrder(dir1: string, parent1: string, dir2: string, parent2: string, existing: set<string>)
    requires dir1 != dir2 && parent1 != parent2
    ensures var s := RemoveWithParent(dir1, parent1, existing) + RemoveWithParent(dir2, parent2, existing);
            forall i, j :: 0 <= i < |s| && 0 <= j < |s| && RemovesIn(s[i], dir2, parent2) && RemovesIn(s[j], dir1, parent1) ==>
              j < i
  {
    var a := RemoveWithParent(dir1, parent1, existing);
    var v := RemoveWithParent(dir2, parent2, existing);
    var s := a + v;
    forall i | 0 <= i < |a|
      ensures s[i] == a[i] && RemovesIn(s[i], dir1, parent1) && !RemovesIn(s[i], dir2, parent2)
    {
      assert i == 0 || i == 1;
    }
    forall i | |a| <= i < |s|
      ensures s[i] == v[i - |a|] && RemovesIn(s[i], dir2, parent2) && !RemovesIn(s[i], dir1, parent1)
    {
      assert i - |a| == 0 || i - |a| == 1;
    }
  }

  /**
   * The application's removal pair comes entirely before the virtualenv's:
   * no step on the virtualenv side precedes a step on the application side.
   * (The two directories differ for every name except an absolute one.)
   */
  lemma CleanRemovesAppBeforeVenv(appName: string, typed: string, confirmed: bool,
                                  realpath: string -> string, existing: set<string>)
    requires AppDir(ChosenAppName(appName, typed)) != VenvDir(ChosenAppName(appName, typed))
    ensures var name := ChosenAppName(appName, typed);
            var s := CleanPlan(appName, typed, confirmed, realpath, existing).steps;
            forall i, j :: 0 <= i < |s| && 0 <= j < |s| &&
                           RemovesIn(s[i], VenvDir(name), VenvsDir) && RemovesIn(s[j], AppDir(name), ProjectsDir) ==>
              j < i
  {
    var name := ChosenAppName(appName, typed);
    assert ProjectsDir != VenvsDir;
    PairsInOrder(AppDir(name), ProjectsDir, VenvDir(name), VenvsDir, existing);
  }

  /**
   * A relative path as the local `os.path.realpath` finds it unchanged
   * apart from the working directory in front: no leading or trailing `/`,
   * no repeated `/` and no `.` anywhere (so no `.` or `..` component).  A
   * `~` is an ordinary character to `realpath`.
   */
  predicate IsSimpleRelative(p: string) {
    && p != [] && p[0] != '/' && p[|p| - 1] != '/' && '.' !in p
    && forall i :: 0 <= i < |p| - 1 ==> !(p[i] == '/' && p[i + 1] == '/')
  }

  /**
   * `os.path.realpath` on a machine whose working directory is `/home/op`
   * and which has no symlinks under it, for the simple relative paths of
   * IsSimpleRelative; it is used on no other path.
   */
  function LocalRealpath(path: string): string {
    "/home/op/" + path
  }

  /** Under LocalRealpath, the guard accepts any simple relative name joined to a simple relative root. */
  lemma LocalGuardAcceptsChild(root: string, name: string)
    requires IsSimpleRelative(root) && IsSimpleRelative(name)
    ensures IsSimpleRelative(Join(root, name))
    ensures IsSubpath(LocalRealpath, Join(root, name), root)
  {
    var path := Join(root, name);
    assert path == root + "/" + name;
    forall i | 0 <= i < |path| - 1
      ensures !(path[i] == '/' && path[i + 1] == '/')
    {
      if i + 1 < |root| {
        assert path[i] == root[i] && path[i + 1] == root[i + 1];
      } else if i > |root| {
        assert path[i] == name[i - |root| - 1] && path[i + 1] == name[i - |root|];
      }
    }
    assert LocalRealpath(path) == LocalRealpath(root) + "/" + name;
    SubpathIsStrictDescendant(LocalRealpath, path, root);
  }

  /** A path with one blank in it reaches `rm -rf` as two operands. */
  lemma BlankSplitsRemoval(first: string, second: string)
    requires first != [] && HasNoBlank(first) && second != [] && HasNoBlank(second)
    ensures Words(RemoveTree(first + " " + second).Line()) == ["rm", "-rf", first, second]
  {
    RemoveTreeWords(first + " " + second);
    TwoWords(first, second);
  }

  /** The two roots of `clean`, and the name `a ~`, are simple relative paths. */
  lemma SimpleRoots()
    ensures IsSimpleRelative(ProjectsDir) && IsSimpleRelative(VenvsDir) && IsSimpleRelative("a ~")
  {
    assert ProjectsDir == "~" + "/" + "projects" && VenvsDir == "~" + "/" + "virtualenvs";
  }

  /** For the name `a ~`, both guards pass and only the application directory exists: the plan is one removal. */
  lemma BlankNamePassesGuards()
    ensures IsSubpath(LocalRealpath, AppDir("a ~"), ProjectsDir)
    ensures IsSubpath(LocalRealpath, VenvDir("a ~"), VenvsDir)
    ensures CleanPlan("a ~", "", true, LocalRealpath, {"~/projects/a ~"}) ==
            Plan([Exec(Login, "", RemoveTree("~/projects/a ~"))], Completed)
  {
    SimpleRoots();
    LocalGuardAcceptsChild(ProjectsDir, "a ~");
    LocalGuardAcceptsChild(VenvsDir, "a ~");
    assert AppDir("a ~") == "~/projects/a ~";
    assert VenvDir("a ~") != "~/projects/a ~";
  }

  /**
   * With an application name containing a blank, the guard checks one path
   * while the shell deletes others: when both guards accept `first second`
   * and the application directory exists, the remote shell receives
   * `rm -rf ~/projects/first second` and removes `second` as well, a path
   * the guard never saw.  BlankNamePassesGuards shows the guards accept
   * `a ~`, whose second operand `~` is the whole home directory.
   */
  lemma CleanAsWrittenSplitsName(first: string, second: string, realpath: string -> string, existing: set<string>)
    requires first != [] && HasNoBlank(first) && second != [] && HasNoBlank(second) && first[0] != '/'
    requires var name := first + " " + second;
             IsSubpath(realpath, AppDir(name), ProjectsDir) && IsSubpath(realpath, VenvDir(name), VenvsDir) &&
             AppDir(name) in existing
    ensures var p := CleanPlan(first + " " + second, "", true, realpath, existing);
            && p.outcome == Completed
            && p.steps[0] == Exec(Login, "", RemoveTree(AppDir(first + " " + second)))
            && Words(p.steps[0].cmd.Line()) == ["rm", "-rf", ProjectsDir + "/" + first, second]
  {
    var name := first + " " + second;
    var operand := ProjectsDir + "/" + first;
    assert AppDir(name) == operand + " " + second;
    assert HasNoBlank(operand) by {
      assert HasNoBlank(ProjectsDir + "/");
      NoBlankConcat(ProjectsDir + "/", first);
    }
    BlankSplitsRemoval(operand, second);
  }

  /** Letters, digits, `-`, `_` and `.`: nothing a shell splits on or expands. */
  predicate IsNameChar(ch: char) {
    ('a' <= ch <= 'z') || ('A' <= ch <= 'Z') || ('0' <= ch <= '9') || ch == '-' || ch == '_' || ch == '.'
  }

  predicate IsPlainName(name: string) {
    forall i :: 0 <= i < |name| ==> IsNameChar(name[i])
  }

  /**
   * `clean` with the application name checked against an allow-list before
   * it is used in any path or command.  Every `rm -rf` it issues then
   * reaches the shell as exactly the three words `rm`, `-rf` and the path
   * that passed the guard.
   */
  function SafeCleanPlan(appName: string, typed: string, confirmed: bool,
                         realpath: string -> string, existing: set<string>): (p: Plan)
    ensures var name := ChosenAppName(appName, typed);
            name != "" && !IsPlainName(name) ==> p == Plan([], Aborted(UnsafeAppName(name)))
    ensures var name := ChosenAppName(appName, typed);
            name == "" || IsPlainName(name) ==> p == CleanPlan(appName, typed, confirmed, realpath, existing)
    ensures var name := ChosenAppName(appName, typed);
            forall i :: 0 <= i < |p.steps| && p.steps[i].Exec? && p.steps[i].cmd.RemoveTree? ==>
              var path := p.steps[i].cmd.path;
              && Words(p.steps[i].cmd.Line()) == ["rm", "-rf", path]
              && path in existing
              && ((path == AppDir(name) && IsSubpath(realpath, path, ProjectsDir)) ||
                  (path == VenvDir(name) && IsSubpath(realpath, path, VenvsDir)))
  {
    var name := ChosenAppName(appName, typed);
    if name != "" && !IsPlainName(name) then Plan([], Aborted(UnsafeAppName(name)))
    else
      CleanRemovesOnlyGuardedPaths(appName, typed, confirmed, realpath, existing);
      if name != "" then
        PlainNameRemovalsAreSingleWords(name);
        CleanPlan(appName, typed, confirmed, realpath, existing)
      else
        CleanPlan(appName, typed, confirmed, realpath, existing)
  }

  /** For a plain name, the `rm -rf` of a directory under a blank-free root has exactly one operand. */
  lemma PlainRemovalIsOneOperand(root: string, name: string)
    requires HasNoBlank(root) && name != [] && IsPlainName(name)
    ensures Words(RemoveTree(Join(root, name)).Line()) == ["rm", "-rf", Join(root, name)]
  {
    PlainPathIsOneWord(root, name);
    RemoveTreeWords(Join(root, name));
    SingleWord(Join(root, name));
  }

  /** For a plain name, both possible `rm -rf` lines have exactly one operand. */
  lemma PlainNameRemovalsAreSingleWords(name: string)
    requires name != [] && IsPlainName(name)
    ensures Words(RemoveTree(AppDir(name)).Line()) == ["rm", "-rf", AppDir(name)]
    ensures Words(RemoveTree(VenvDir(name)).Line()) == ["rm", "-rf", VenvDir(name)]
  {
    assert HasNoBlank(ProjectsDir) && HasNoBlank(VenvsDir);
    PlainRemovalIsOneOperand(ProjectsDir, name);
    PlainRemovalIsOneOperand(VenvsDir, name);
  }

  /** A root without blanks joined with a plain, non-empty name has no blanks. */
  lemma PlainPathIsOneWord(root: string, name: string)
    requires HasNoBlank(root) && IsPlainName(name) && name != []
    ensures Join(root, name) != [] && HasNoBlank(Join(root, name))
  {
    assert name[0] != '/';
    var r := Join(root, name);
    forall i | 0 <= i < |r| ensures !IsBlank(r[i]) {
      if i < |root| {
        assert r[i] == root[i];
      } else if i >= |r| - |name| {
        assert r[i] == name[i - (|r| - |name|)];
      } else {
        assert r[i] == '/';
      }
    }
  }
}
